=== FILE: README.md ===
# bsread live-stream decoder, modelled in Dafny

This project models the frame decoder of the caQtDM bsread plugin
(`bsread_Decode`). The decoder takes live process-variable data from a
streaming source. Each message is a multi-part frame sequence:

- a JSON main header;
- optionally a JSON channel schema;
- data and timestamp frames that alternate, one pair per schema channel.

The decoder writes each value into the channel entry under its cursor. At the
end of every message that carries a schema frame, it fans the values out to the display's knob records that
subscribed to a channel name.

The model is a deterministic state machine. An immutable decoder state
(`Decode.State`) is threaded through pure step functions:

- the main-header and schema-header decoders;
- the cursor-guarded data and timestamp writes;
- the end-of-message fan-out;
- subscription;
- one pass of the reader loop over an already-received message.

The state holds:

- the main-header record: hash, pulse id, header type tag, epoch and ns;
- the channel list (`channels`);
- the name index (`search`), which maps a name to a position in the list;
- the cursor;
- the subscription list.

JSON arrives already parsed (`Json.Json`). A frame payload is abstract: it is
the list of values that the decoder's pointer casts would read from it
(`Channel.Payload`), not bytes.

Modules, leaves first:

- `Prelude`: an optional value, the C integer ranges, and C's float-to-int truncation.
- `Json`: the parsed JSON value and the guarded member reads.
- `QtText`: the UTF-16 length and the Latin-1 conversion of a Qt string.
- `Channel`: a channel entry, its storage record, and the data write.
- `Schema`: descriptor parsing and the name index.
- `Decode`: the decoder state and its four frame handlers.
- `Publish`: knob records, the fan-out and subscription.
- `Run`: the routing of one message and of a run of messages.

Behaviour of the code that the model reproduces on purpose:

- The schema decoder guards `htype` with a number test and then reads it as a
  string. So a string `htype` in a schema frame never updates the header type
  tag. `Decode.SetHeader` states that the tag never changes there.
- Shape is read only when an `encoding` string is also present
  (`Schema.DescriptorShape`).
- The endianness is recorded, but the data write never looks at it
  (`Channel.StoreData` depends only on the type and the payload).
- Integer, long and short values are converted and stored into the double
  field. They are published from the integer, long and short fields, which
  no line of the decoder writes. The storage record's declaration is not
  part of this model; the model takes its fields as separate, and under that
  reading `Run.IntegerValuesNeverPublished` proves that a knob fed from such
  a channel always receives the value of a fresh entry.
- With duplicate names, the name index keeps the LAST descriptor, because the
  map insert overwrites (`Schema.NameIndexFindsLast`), not the first one a
  lookup might be expected to find.
- A descriptor whose type is missing or unknown still yields an entry.
  Subscription to it succeeds. At the end of a message the knob is still
  marked connected and its monitor count is still incremented; only the value
  and field type are left alone.
- A schema frame that is not an object, or that has no `channels` array,
  leaves the schema empty. The previous list and index are cleared before
  parsing. In that case the pulse id and global timestamp are not read from
  the frame either.
- The cursor is reset only at the end of a message, never by the schema
  decoder. For a run that starts at cursor 0 this is the same as a reset
  at the start of each message (`Run.RunAll` keeps the cursor at 0 between
  messages).
- Every JSON string is read with `QString::fromWCharArray(...c_str())`, so
  it ends at its first NUL (`Json.CStr`). Type names, channel names, the
  encoding, the hash and the header type are all cut there; two channel
  names that agree up to a NUL are one key of the name index
  (`Schema.TypeCutAtNul`, `Schema.NamesCutAtNul`).
- A message that has only a main header runs neither the schema decoder nor
  the fan-out.
- A string is published as `QString::toLatin1()` bytes with the
  `QString::length()` of the text. A character above U+00FF therefore
  arrives as '?', and one outside the Basic Multilingual Plane as two '?'
  (`QtText`, `Publish.PublishNonLatin1`).

## Model

| member | source | states |
|---|---|---|
| Prelude.TruncateToInt | caQtDM_Lib/caQtDM_Plugins/bsread/bsread_decode.cpp:200 | `(int)` of a number drops the fraction toward zero: the result is within 1 of the input and never farther from zero than it |
| Json.TopObject | caQtDM_Lib/caQtDM_Plugins/bsread/bsread_decode.cpp:106-111 | a parse result is used only when parsing succeeded and the top level is an object |
| Json.CStr | caQtDM_Lib/caQtDM_Plugins/bsread/bsread_decode.cpp:113 | a JSON string is read as the longest NUL-free prefix of its text: the result has no NUL, and it ends at a NUL of the text or at its end |
| Schema.TypeCutAtNul | caQtDM_Lib/caQtDM_Plugins/bsread/bsread_decode.cpp:162-166 | a type string "double", NUL, "x" selects double, because only the text before the NUL is compared |
| Schema.NamesCutAtNul | caQtDM_Lib/caQtDM_Plugins/bsread/bsread_decode.cpp:179-182 | names "A", NUL, "x" and "A", NUL, "y" become the single index key "A", leading to the second descriptor |
| Schema.ParseType | caQtDM_Lib/caQtDM_Plugins/bsread/bsread_decode.cpp:162-176 | a type string selects a value type exactly when it is one of the five wire names, and then the type whose wire name it is; any other string selects none |
| Schema.ParseTypeName | caQtDM_Lib/caQtDM_Plugins/bsread/bsread_decode.cpp:165-175 | parsing a type's wire name gives that type back (each of the five types is reachable) |
| Schema.DescriptorShape | caQtDM_Lib/caQtDM_Plugins/bsread/bsread_decode.cpp:191-205 | the shape is replaced exactly when both an `encoding` string and a `shape` array are present, and then has one truncated dimension per array element, in order |
| Schema.ParseDescriptor | caQtDM_Lib/caQtDM_Plugins/bsread/bsread_decode.cpp:159-206 | each entry field comes from the descriptor only when present with the right kind, otherwise it keeps the fresh entry's value; the entry is big-endian exactly when `encoding`, read up to its first NUL, is `"big"`; type and name are likewise read up to their first NUL; value and timestamp stay fresh |
| Schema.ParseChannels | caQtDM_Lib/caQtDM_Plugins/bsread/bsread_decode.cpp:154-160 | N descriptors give exactly N entries, entry i from descriptor i, whatever the descriptor holds |
| Schema.NameIndexKeys | caQtDM_Lib/caQtDM_Plugins/bsread/bsread_decode.cpp:179-182 | a name is in the index if and only if some descriptor has it as a string `name` (nameless descriptors are not indexed) |
| Schema.NameIndexFindsLast | caQtDM_Lib/caQtDM_Plugins/bsread/bsread_decode.cpp:179-182 | an indexed name leads to a descriptor carrying that name, and no later descriptor carries it (the later duplicate wins) |
| Decode.UpdateTiming | caQtDM_Lib/caQtDM_Plugins/bsread/bsread_decode.cpp:117-132 | pulse id, epoch and ns each change only when present as numbers (epoch and ns only inside a `global_timestamp` object); hash and type tag are untouched |
| Decode.SetMainHeader | caQtDM_Lib/caQtDM_Plugins/bsread/bsread_decode.cpp:101-138 | the raw text is always recorded; a frame that does not parse to an object changes nothing else; otherwise hash and type tag change only when present as strings, and then to the text before the first NUL; nothing outside the header changes |
| Decode.SetMainHeaderIdempotent | caQtDM_Lib/caQtDM_Plugins/bsread/bsread_decode.cpp:101-138 | receiving the same main header frame twice leaves the same state as receiving it once |
| Decode.SchemaDescriptors | caQtDM_Lib/caQtDM_Plugins/bsread/bsread_decode.cpp:145-154 | descriptors are available exactly when the frame parses to an object with a `channels` array |
| Decode.SchemaEntries | caQtDM_Lib/caQtDM_Plugins/bsread/bsread_decode.cpp:143-160 | a schema frame without a `channels` array yields no entries; otherwise one entry per descriptor |
| Decode.SetHeader | caQtDM_Lib/caQtDM_Plugins/bsread/bsread_decode.cpp:139-234 | the old list and index are discarded; a valid schema rebuilds them (N entries in order, index of the named ones) and updates pulse id and timestamp; an invalid one leaves both empty and the header alone; hash, type tag, cursor and subscriptions never change; the index is consistent with the list |
| Decode.SetHeaderReplacesSchema | caQtDM_Lib/caQtDM_Plugins/bsread/bsread_decode.cpp:139-160 | the entry list and name index after a schema frame depend on that frame alone: nothing of an earlier schema survives |
| Decode.SetHeaderIdempotent | caQtDM_Lib/caQtDM_Plugins/bsread/bsread_decode.cpp:139-234 | receiving the same schema frame twice leaves the same state as receiving it once |
| Channel.StoreData | caQtDM_Lib/caQtDM_Plugins/bsread/bsread_decode.cpp:238-260 | only the storage record changes; a double or string is stored as read; integer, long and short readings go into the double field; the integer, long and short fields are never written; an untyped entry is untouched |
| Decode.SetChannelData | caQtDM_Lib/caQtDM_Plugins/bsread/bsread_decode.cpp:235-262 | with the cursor inside the list only the entry under it changes; at or past the end the write is a no-op; the cursor never moves |
| Decode.SetChannelTimeStamp | caQtDM_Lib/caQtDM_Plugins/bsread/bsread_decode.cpp:264-270 | with the cursor inside the list the entry under it gets the timestamp and the cursor advances by exactly one; at or past the end nothing changes; the cursor stays within the list |
| Run.FeedData | caQtDM_Lib/caQtDM_Plugins/bsread/bsread_decode.cpp:61-80 | the data stage changes only entries and cursor, keeps the list length, and keeps the cursor within the list |
| Run.FeedDataKeepsSchema | caQtDM_Lib/caQtDM_Plugins/bsread/bsread_decode.cpp:235-270 | the data stage changes no schema field of any entry and no integer, long or short storage field, so the name index stays consistent |
| Run.FeedDataCursor | caQtDM_Lib/caQtDM_Plugins/bsread/bsread_decode.cpp:61-80 | from a cursor c within N entries, k complete pairs leave the cursor at min(c + k, N) |
| Run.FeedDataEntry | caQtDM_Lib/caQtDM_Plugins/bsread/bsread_decode.cpp:61-80 | walking the frames pair by pair agrees with the position-only account `SlotAfter`: the entry j places past the cursor gets the j-th pair, or the unpaired last data frame, or nothing |
| Run.RunMessage | caQtDM_Lib/caQtDM_Plugins/bsread/bsread_decode.cpp:38-88 | a message that has only a main header changes nothing but the header and leaves the knobs alone; a message with a schema ends with the cursor at 0 and with every eligible knob published as many times as it is subscribed; subscriptions never change |
| Run.RunAll | caQtDM_Lib/caQtDM_Plugins/bsread/bsread_decode.cpp:38-88 | over any run of messages the cursor stays at 0 between messages when it started there, and index consistency is kept |
| Run.RunMessagePulse | caQtDM_Lib/caQtDM_Plugins/bsread/bsread_decode.cpp:49-81 | after a message with a schema, the list is exactly the schema's entries and entry i holds the i-th pair (or the trailing data frame); every later entry is as the schema built it, so exactly entries 0 .. min(k, N) - 1 receive pairs |
| Run.RunMessageKeepsIntegerFields | caQtDM_Lib/caQtDM_Plugins/bsread/bsread_decode.cpp:248-258 | after a message with a schema, every entry's integer, long and short storage fields hold the fresh entry's values, whatever the data frames carried |
| Run.IntegerValuesNeverPublished | caQtDM_Lib/caQtDM_Plugins/bsread/bsread_decode.cpp:248-324 | a subscribed knob fed from an integer, long or short channel receives the fresh entry's stored value, never the value read from the data frame |
| Publish.Resolve | caQtDM_Lib/caQtDM_Plugins/bsread/bsread_decode.cpp:282-288 | under a consistent index, a PV resolves exactly when it is indexed, and then to an entry carrying that very name |
| Publish.ResolveAfterSchema | caQtDM_Lib/caQtDM_Plugins/bsread/bsread_decode.cpp:179-182 | after a schema frame, a PV resolves exactly when some descriptor carries its name, and then to the entry built from the last such descriptor; without a `channels` array nothing resolves |
| Publish.PublishKnob | caQtDM_Lib/caQtDM_Plugins/bsread/bsread_decode.cpp:290-335 | field type per value type (double, string, integer, long, short become caDOUBLE, caSTRING, caINT, caLONG, caINT), the value of that type copied, connected and read access set, write access cleared, monitor count up by exactly one, every other field kept; a string arrives as its Latin-1 bytes with its UTF-16 length, and a buffer that recorded its size keeps doing so and holds exactly the copied bytes |
| Publish.PublishNonLatin1 | caQtDM_Lib/caQtDM_Plugins/bsread/bsread_decode.cpp:296-310 | the text "€😀" reaches the knob as three '?' bytes with a recorded length of 3 |
| Publish.BufferAsWritten | caQtDM_Lib/caQtDM_Plugins/bsread/bsread_decode.cpp:298-305 | as written, an existing buffer is never reallocated, whatever the new length; only a missing one is allocated, at the new length |
| Publish.BufferFor | caQtDM_Lib/caQtDM_Plugins/bsread/bsread_decode.cpp:298-305 | with the reallocation test made before the length is overwritten, a buffer that recorded its size ends up exactly as long as the new string, and a buffer already of that length is kept |
| QtText.ToLatin1Length | caQtDM_Lib/caQtDM_Plugins/bsread/bsread_decode.cpp:298-308 | `toLatin1()` gives exactly `length()` bytes; `length()` is at least the number of characters, and equal to it exactly when no character lies outside the Basic Multilingual Plane |
| QtText.Latin1RoundTrip | caQtDM_Lib/caQtDM_Plugins/bsread/bsread_decode.cpp:307-308 | reading the published bytes back as Latin-1 gives the text again if and only if every character is at most U+00FF |
| QtText.ToLatin1Replaces | caQtDM_Lib/caQtDM_Plugins/bsread/bsread_decode.cpp:307-308 | a character above U+00FF arrives as '?' at the byte where its code units start |
| Publish.PublishAll | caQtDM_Lib/caQtDM_Plugins/bsread/bsread_decode.cpp:277-339 | the fan-out adds and removes no knob, and changes no knob's index or PV name |
| Publish.PublishAllCounts | caQtDM_Lib/caQtDM_Plugins/bsread/bsread_decode.cpp:277-339 | a knob that is in use, resolvable and registered n > 0 times ends up published with its monitor count up by exactly n; every other knob is unchanged |
| Publish.EndofData | caQtDM_Lib/caQtDM_Plugins/bsread/bsread_decode.cpp:272-343 | the cursor goes back to 0, nothing else in the decoder changes, and the knobs are updated as in `PublishAllCounts`; every knob whose buffer recorded its size still does |
| Publish.DataMonitorConnection | caQtDM_Lib/caQtDM_Plugins/bsread/bsread_decode.cpp:345-356 | returns true if and only if the PV name is in the index; then exactly the knob's index is appended to the subscriptions; otherwise nothing changes |
| Publish.SubscribeThenPublish | caQtDM_Lib/caQtDM_Plugins/bsread/bsread_decode.cpp:272-356 | a knob registered once by a successful subscription is, at the next end of message, connected, readable, not writable, counted once more, and carries its entry's value |

## Findings

| source | as written | input that shows it | evidently intended | confidence | as-written member | corrected member |
|---|---|---|---|---|---|---|
| caQtDM_Lib/caQtDM_Plugins/bsread/bsread_decode.cpp:298-305 | `dataSize` is set to the new length before the reallocation test, which then compares it with that same length and never fires | a knob that receives "a" (one-byte buffer) and then "ab": two bytes are copied into the one-byte buffer | test the old `dataSize` against the new length before overwriting it, so the buffer always holds the copied bytes | high, not executed | Publish.BufferAsWritten, Publish.BufferAsWrittenOverflows | Publish.BufferFor, Publish.PublishKnob |

## Left out

- Socket creation, connect, receive and the "more parts" query are left out. The constructor and `run` do this I/O on a blocking thread. `Run.Message` stands for one already-received multi-part message. `Decode.Init` is the state after a successful connect. After a failed connect the cursor is never initialised, and that case is not modelled.
- A receive error in `run` is left out. The code logs it and hands whatever the message buffer then holds to the decoder.
- A frame's text is taken as given. The code reads a frame as a NUL-terminated string, even though frames carry no terminator; this byte-level reading is not modelled.
- The JSON library is left out because its code is not shown. Its parse result is an input (`Frame.parsed`).
- Reading an object out of a descriptor that is not an object is defined by that library. The model reads such a descriptor as an object without members.
- Reading a number out of a shape element that is not a number is library-defined too. The model reads such an element as 0.
- The `(int)` cast of a number outside the `int` range is undefined in C. The model's `Prelude.TruncateToInt` does not bound its result.
- Decode.SetHeader: a numeric `htype` in a schema frame makes the code read a string out of a number value. The result is not defined by anything shown, so the model leaves the header type tag unchanged in that case.
- Numbers are modelled as mathematical reals, not IEEE754 doubles. This covers JSON numbers, payload readings, timestamps and the double field. Conversions are therefore exact. In particular, a 64-bit `long` stored into the double field is not rounded.
- The member types that header values are stored into are declared in a header that is not part of this model. So is the fresh channel entry's constructor. The header fields keep the values the JSON gives. The fresh entry is modelled with empty name, no type, zero offset and modulo, little-endian, scalar shape and zero values (`Channel.Fresh`).
- The null-pointer guard on data and timestamp frames is left out: the model assumes `zmq_msg_data` never returns NULL for a received frame.
- Publish.EndofData: when a subscribed name is missing from the current index, the code uses an uninitialised pointer, or the entry found for the previous knob. The model skips such a knob and leaves it unchanged.
- Publish.EndofData: the knob record is written back at the subscribed index. The code writes it at the knob's own `index` field, and the model assumes the two agree.
- The `malloc`/`free`/`memcpy` of the string branch are modelled only as the buffer's size (`Knob.bufferSize`), its content and its recorded length. Memory itself and the knob table's mutex calls are left out.
- Publish.PublishKnob: uses the corrected reallocation test (`Publish.BufferFor`, see Findings). The overrun the code as written allows is shown by `Publish.BufferAsWrittenOverflows`; what the overrun writes into memory is not modelled.
- Publish.PublishKnob: `monitorCount` is an unbounded integer. Its width in the knob record is declared in a file that is not part of this model, so a wrap-around of the counter is not modelled.
- Decode.SetMainHeader: the code declares the function as returning `bool` but has no `return` statement. Flowing off its end is undefined behaviour in C++, and `run` ignores the result. The model assumes the call returns normally and has no result.
- Run.IntegerValuesNeverPublished: the declaration of the channel's storage record is not part of this model, and the model takes its double, integer, long and short fields as separate. If they share storage (a union), the knob would instead receive the stored double's bytes reinterpreted as an integer; that reading is not modelled. Run.RunMessageKeepsIntegerFields rests on the same assumption.
- `ivalue` is an unbounded integer. Its width in the knob record is declared in a file that is not part of this model.
- `getMessage_size` and the other getters and setters are not modelled. They only return or set a field.
- The archive plugins (`archiveSF_plugin.h`, `archivehttp_plugin.h`) and the unit tests are not part of this model. They are Qt plugin wiring, HTTP request assembly and widget tests.

=== FILE: channel.dfy ===
/** One entry of the decoder's channel list (`bsread_channeldata`): the
    schema facts parsed from the channel's descriptor, the per-type storage
    record the data frames are written into (`bsdata`), and the timestamp of
    the last timestamp frame. Also the abstract view of a received frame's
    payload: rather than bytes, the values the decoder's pointer casts would
    read out of it. */
module Channel {
  import opened Prelude

  /** The channel's declared value type. `Untyped` is the type a fresh entry
      keeps when its descriptor has no type string the decoder recognises. */
  datatype ValueType = Untyped | BsDouble | BsString | BsInteger | BsLong | BsShort

  datatype Endianness = Little | Big

  /** The storage record of one channel: one field per value type, each
      field separate from the others (the record's declaration is not part
      of this model, so a shared union layout is not modelled). The data
      writes of the decoder reach only `dbl` and `text`. */
  datatype Storage = Storage(dbl: real, text: string, integer: Int32, long: Int64, short: Int16)

  datatype Channel = Channel(
    name: string,
    vtype: ValueType,
    offset: real,
    modulo: real,
    endianness: Endianness,
    shape: seq<int>,
    data: Storage,
    timestamp: real)

  /** A payload as the decoder reads it: the bytes up to the first NUL as
      text, the leading 8 bytes as a double, and the leading 4, 8 and 2 bytes
      as a signed `int`, `long` and `short`. */
  datatype Payload = Payload(text: string, asDouble: real, asInteger: Int32, asLong: Int64, asShort: Int16)

  /** A newly allocated entry, before its descriptor is applied. */
  const Fresh: Channel := Channel("", Untyped, 0.0, 0.0, Little, [], Storage(0.0, "", 0, 0, 0), 0.0)

  /** The effect of one data frame on the entry under the cursor: the payload
      is read as the entry's declared type. Every integer type is converted
      and stored into the double field; the integer, long and short fields
      are never written. An untyped entry is left alone. Byte order is never
      consulted, whatever the entry's endianness. */
  function StoreData(c: Channel, p: Payload): (r: Channel)
    ensures r == c.(data := r.data)
    ensures r.data.integer == c.data.integer
    ensures r.data.long == c.data.long
    ensures r.data.short == c.data.short
    ensures c.vtype == BsString ==> r.data == c.data.(text := p.text)
    ensures c.vtype == BsDouble ==> r.data == c.data.(dbl := p.asDouble)
    ensures c.vtype == BsInteger ==> r.data == c.data.(dbl := p.asInteger as real)
    ensures c.vtype == BsLong ==> r.data == c.data.(dbl := p.asLong as real)
    ensures c.vtype == BsShort ==> r.data == c.data.(dbl := p.asShort as real)
    ensures c.vtype == Untyped ==> r == c
  {
    match c.vtype
    case BsDouble => c.(data := c.data.(dbl := p.asDouble))
    case BsString => c.(data := c.data.(text := p.text))
    case BsInteger => c.(data := c.data.(dbl := p.asInteger as real))
    case BsLong => c.(data := c.data.(dbl := p.asLong as real))
    case BsShort => c.(data := c.data.(dbl := p.asShort as real))
    case Untyped => c
  }
}

=== FILE: decode.dfy ===
/** The decoder's state and the four operations the frame reader calls on
    it: the main-header decoder, the schema-header decoder, and the
    cursor-guarded data and timestamp writes. */
module Decode {
  import opened Prelude
  import opened Json
  import opened Channel
  import opened Schema

  /** A received frame: its payload, and what the JSON library made of its
      text (`None` when parsing failed). */
  datatype Frame = Frame(raw: Payload, parsed: Option<Json>)

  /** The message envelope: hash, pulse id, header type tag and global
      timestamp (epoch seconds and nanoseconds). */
  datatype Header = Header(hash: string, pulseId: real, htype: string, epoch: real, ns: real)

  /** The decoder state. `channels` and `search` (the name index, mapping a
      name to a position in `channels`) make up the current schema; `cursor`
      is the position the next data and timestamp frames are written to;
      `subscriptions` lists the knob indexes registered for publishing. The
      raw texts of the last main header and schema frames are kept too. */
  datatype State = State(
    mainHeaderText: string,
    channelHeaderText: string,
    header: Header,
    channels: seq<Channel>,
    search: map<string, nat>,
    cursor: nat,
    subscriptions: seq<int>)

  /** A decoder whose socket connected: cursor at 0, nothing else known. */
  const Init: State := State("", "", Header("", 0.0, "", 0.0, 0.0), [], map[], 0, [])

  /** The cursor never points past the end of the channel list. */
  ghost predicate CursorInBounds(s: State)
  {
    s.cursor <= |s.channels|
  }

  /** Every name in the index leads to an entry of that name. */
  ghost predicate IndexConsistent(s: State)
  {
    forall n | n in s.search :: s.search[n] < |s.channels| && s.channels[s.search[n]].name == n
  }

  /** The pulse id and global timestamp carried by a header object: each
      field is taken only when present as a number (the timestamp ones only
      inside a `global_timestamp` object), and keeps its value otherwise. */
  function UpdateTiming(h: Header, m: map<string, Json>): (r: Header)
    ensures r.hash == h.hash && r.htype == h.htype
    ensures r.pulseId == NumberMember(m, "pulse_id").GetOr(h.pulseId)
    ensures ObjectMember(m, "global_timestamp").None? ==> r.epoch == h.epoch && r.ns == h.ns
    ensures ObjectMember(m, "global_timestamp").Some? ==>
      var ts := ObjectMember(m, "global_timestamp").value;
      r.epoch == NumberMember(ts, "epoch").GetOr(h.epoch) && r.ns == NumberMember(ts, "ns").GetOr(h.ns)
  {
    var h1 := h.(pulseId := NumberMember(m, "pulse_id").GetOr(h.pulseId));
    match ObjectMember(m, "global_timestamp")
    case Some(ts) =>
      h1.(epoch := NumberMember(ts, "epoch").GetOr(h.epoch), ns := NumberMember(ts, "ns").GetOr(h.ns))
    case None => h1
  }

  /** The main-header decoder. The raw text is always recorded; the header
      fields change only when the frame parses to an object, and then only
      those present with the expected kind (`hash` and `htype` strings,
      `pulse_id` a number, `global_timestamp` an object of numbers). Nothing
      outside the header changes. */
  function SetMainHeader(s: State, f: Frame): (r: State)
    ensures r == s.(mainHeaderText := f.raw.text, header := r.header)
    ensures TopObject(f.parsed).None? ==> r.header == s.header
    ensures TopObject(f.parsed).Some? ==>
      var m := TopObject(f.parsed).value;
      && r.header.hash == StringMember(m, "hash").GetOr(s.header.hash)
      && r.header.htype == StringMember(m, "htype").GetOr(s.header.htype)
      && r.header == UpdateTiming(s.header, m).(hash := r.header.hash, htype := r.header.htype)
  {
    match TopObject(f.parsed)
    case None => s.(mainHeaderText := f.raw.text)
    case Some(m) =>
      var timed := UpdateTiming(s.header, m);
      var h := timed.(
        hash := StringMember(m, "hash").GetOr(s.header.hash),
        htype := StringMember(m, "htype").GetOr(s.header.htype));
      s.(mainHeaderText := f.raw.text, header := h)
  }

  /** The descriptor array of a schema frame: present only when the frame
      parses to an object with a `channels` array. */
  function SchemaDescriptors(parsed: Option<Json>): (r: Option<seq<Json>>)
    ensures r.Some? <==> TopObject(parsed).Some? && ArrayMember(TopObject(parsed).value, "channels").Some?
  {
    match TopObject(parsed)
    case Some(m) => ArrayMember(m, "channels")
    case None => None
  }

  /** The entry list a schema frame yields: one entry per descriptor of its
      `channels` array, none when the frame carries no such array. */
  function SchemaEntries(parsed: Option<Json>): (r: seq<Channel>)
    ensures SchemaDescriptors(parsed).None? ==> r == []
    ensures SchemaDescriptors(parsed).Some? ==> |r| == |SchemaDescriptors(parsed).value|
  {
    match SchemaDescriptors(parsed)
    case Some(descs) => ParseChannels(descs)
    case None => []
  }

  /** The schema-header decoder. The previous channel list and name index
      are discarded first. When the frame is an object with a `channels`
      array of N descriptors, the list is rebuilt with exactly N entries in
      array order and the index from the named ones, and the pulse id and
      global timestamp are taken from the object. Otherwise the schema is
      left empty. The header type tag and hash never change here, and the
      cursor is not reset. */
  function SetHeader(s: State, f: Frame): (r: State)
    ensures r.channelHeaderText == f.raw.text
    ensures r == s.(channelHeaderText := r.channelHeaderText, header := r.header,
                    channels := r.channels, search := r.search)
    ensures r.header.hash == s.header.hash && r.header.htype == s.header.htype
    ensures SchemaDescriptors(f.parsed).None? ==>
      r.channels == [] && r.search == map[] && r.header == s.header
    ensures SchemaDescriptors(f.parsed).Some? ==>
      var descs := SchemaDescriptors(f.parsed).value;
      && |r.channels| == |descs|
      && (forall i :: 0 <= i < |descs| ==> r.channels[i] == ParseDescriptor(descs[i]))
      && r.search == NameIndex(descs)
      && r.header == UpdateTiming(s.header, TopObject(f.parsed).value)
    ensures r.channels == SchemaEntries(f.parsed)
    ensures IndexConsistent(r)
  {
    var cleared := s.(channelHeaderText := f.raw.text, channels := [], search := map[]);
    match SchemaDescriptors(f.parsed)
    case None => cleared
    case Some(descs) =>
      NameIndexFindsLast(descs);
      cleared.(
        channels := ParseChannels(descs),
        search := NameIndex(descs),
        header := UpdateTiming(s.header, TopObject(f.parsed).value))
  }

  /** A data frame is written into the entry under the cursor, read as that
      entry's type; when the cursor is at or past the end it is dropped.
      The cursor does not move and no other entry changes. */
  function SetChannelData(s: State, f: Frame): (r: State)
    ensures r == s.(channels := r.channels)
    ensures |r.channels| == |s.channels|
    ensures forall i | 0 <= i < |s.channels| && i != s.cursor :: r.channels[i] == s.channels[i]
    ensures s.cursor < |s.channels| ==> r.channels[s.cursor] == StoreData(s.channels[s.cursor], f.raw)
    ensures s.cursor >= |s.channels| ==> r == s
    ensures IndexConsistent(s) ==> IndexConsistent(r)
  {
    if s.cursor < |s.channels| then
      s.(channels := s.channels[s.cursor := StoreData(s.channels[s.cursor], f.raw)])
    else s
  }

  /** A timestamp frame stamps the entry under the cursor with its value read
      as a double and advances the cursor by exactly one; when the cursor is
      at or past the end it is dropped and the cursor stays. No other entry,
      and nothing of the stamped entry but its timestamp, changes. */
  function SetChannelTimeStamp(s: State, f: Frame): (r: State)
    ensures r == s.(channels := r.channels, cursor := r.cursor)
    ensures |r.channels| == |s.channels|
    ensures forall i | 0 <= i < |s.channels| && i != s.cursor :: r.channels[i] == s.channels[i]
    ensures s.cursor < |s.channels| ==>
      r.cursor == s.cursor + 1 && r.channels[s.cursor] == s.channels[s.cursor].(timestamp := f.raw.asDouble)
    ensures s.cursor >= |s.channels| ==> r == s
    ensures CursorInBounds(s) ==> CursorInBounds(r)
    ensures IndexConsistent(s) ==> IndexConsistent(r)
  {
    if s.cursor < |s.channels| then
      var c := s.channels[s.cursor];
      s.(channels := s.channels[s.cursor := c.(timestamp := f.raw.asDouble)], cursor := s.cursor + 1)
    else s
  }

  /** Receiving the same main header twice is receiving it once. */
  lemma SetMainHeaderIdempotent(s: State, f: Frame)
    ensures SetMainHeader(SetMainHeader(s, f), f) == SetMainHeader(s, f)
  {
  }

  /** A schema frame replaces the schema wholesale: the entry list and name
      index it leaves depend on that frame alone, not on any earlier schema. */
  lemma SetHeaderReplacesSchema(s: State, t: State, f: Frame)
    ensures SetHeader(s, f).channels == SetHeader(t, f).channels
    ensures SetHeader(s, f).search == SetHeader(t, f).search
  {
  }

  /** Receiving the same schema frame twice is receiving it once. */
  lemma SetHeaderIdempotent(s: State, f: Frame)
    ensures SetHeader(SetHeader(s, f), f) == SetHeader(s, f)
  {
  }
}

=== FILE: json.dfy ===
/** An already-parsed JSON value, as handed back by the JSON library the
    decoder calls (`JSON::Parse`), and the guarded member accesses the
    decoder performs on an object: a member is used only when it is present
    AND of the expected kind. */
module Json {
  import opened Prelude

  datatype Json =
    | JObject(members: map<string, Json>)
    | JArray(elements: seq<Json>)
    | JString(str: string)
    | JNumber(num: real)
    | JOther  // true, false and null: never accepted by any guard of the decoder

  /** The members of a parse result whose top level is an object; `None` when
      parsing failed (the library returns NULL) or the top level is not an object. */
  function TopObject(parsed: Option<Json>): (r: Option<map<string, Json>>)
    ensures r.Some? <==> parsed.Some? && parsed.value.JObject?
    ensures r.Some? ==> parsed.value == JObject(r.value)
  {
    if parsed.Some? && parsed.value.JObject? then Some(parsed.value.members) else None
  }

  /** `QString::fromWCharArray(x.c_str())` with its default size of -1: the
      text up to, not including, the first NUL. The result is a prefix of
      the text without a NUL, and it stops only at a NUL or the end. */
  function CStr(s: string): (r: string)
    ensures |r| <= |s| && r == s[..|r|]
    ensures '\0' !in r
    ensures |r| < |s| ==> s[|r|] == '\0'
    decreases |s|
  {
    if |s| == 0 || s[0] == '\0' then "" else [s[0]] + CStr(s[1..])
  }

  /** `find(key) != end() && obj[key]->IsString()`, then its string as the
      decoder reads it: cut at the first NUL (`CStr`). */
  function StringMember(members: map<string, Json>, key: string): (r: Option<string>)
    ensures r.Some? <==> key in members && members[key].JString?
    ensures r.Some? ==> r.value == CStr(members[key].str)
    ensures r.Some? && '\0' !in members[key].str ==> r.value == members[key].str
  {
    if key in members && members[key].JString? then Some(CStr(members[key].str)) else None
  }

  /** `find(key) != end() && obj[key]->IsNumber()`, then its number. */
  function NumberMember(members: map<string, Json>, key: string): (r: Option<real>)
    ensures r.Some? <==> key in members && members[key].JNumber?
    ensures r.Some? ==> members[key] == JNumber(r.value)
  {
    if key in members && members[key].JNumber? then Some(members[key].num) else None
  }

  /** `find(key) != end() && obj[key]->IsArray()`, then its elements. */
  function ArrayMember(members: map<string, Json>, key: string): (r: Option<seq<Json>>)
    ensures r.Some? <==> key in members && members[key].JArray?
    ensures r.Some? ==> members[key] == JArray(r.value)
  {
    if key in members && members[key].JArray? then Some(members[key].elements) else None
  }

  /** `find(key) != end() && obj[key]->IsObject()`, then its members. */
  function ObjectMember(members: map<string, Json>, key: string): (r: Option<map<string, Json>>)
    ensures r.Some? <==> key in members && members[key].JObject?
    ensures r.Some? ==> members[key] == JObject(r.value)
  {
    if key in members && members[key].JObject? then Some(members[key].members) else None
  }
}

=== FILE: prelude.dfy ===
/** Shared vocabulary of the decoder model: an optional value, the value
    ranges of the bytes and C integer types the decoder reads, and C's
    conversion of a floating-point number to an integer. */
module Prelude {

  datatype Option<+T> = None | Some(value: T) {

    /** The carried value, or `default` when there is none. */
    function GetOr(default: T): (r: T)
      ensures Some? ==> r == value
      ensures None? ==> r == default
    {
      match this
      case Some(v) => v
      case None => default
    }
  }

  /** A byte, as C `unsigned char`. */
  type Byte = x: int | 0 <= x < 0x100

  /** C `short` (16-bit signed). */
  type Int16 = x: int | -0x8000 <= x < 0x8000

  /** C `int` (32-bit signed). */
  type Int32 = x: int | -0x8000_0000 <= x < 0x8000_0000

  /** C `long` on an LP64 platform (64-bit signed). */
  type Int64 = x: int | -0x8000_0000_0000_0000 <= x < 0x8000_0000_0000_0000

  /** The C cast `(int)x` of a floating-point value: the fraction is dropped,
      rounding toward zero (not toward minus infinity as `Floor` does). */
  function TruncateToInt(x: real): (r: int)
    ensures 0.0 <= x ==> r as real <= x < r as real + 1.0
    ensures x < 0.0 ==> r as real - 1.0 < x <= r as real
  {
    if 0.0 <= x then x.Floor else -((-x).Floor)
  }
}

=== FILE: publish.dfy ===
/** Subscription and fan-out: knobs (the display's per-PV records) are
    registered by name against the current name index, and at the end of
    each message every registered knob receives its channel's value. */
module Publish {
  import opened Prelude
  import opened Channel
  import opened Schema
  import opened Decode
  import QtText

  /** The display's field type tags the decoder assigns, and any other tag a
      knob may already carry. */
  datatype FieldType = CaDouble | CaString | CaInt | CaLong | CaOther(code: int)

  /** The part of a knob record the decoder reads or writes: its table index
      (-1 marks an unused knob), its PV name, and its value fields. `dataB`
      is the string buffer's content, `bufferSize` the size of the buffer it
      points at (`None` for a null pointer), and `dataSize` the length the
      knob records for it. */
  datatype Knob = Knob(
    index: int,
    pv: string,
    fieldtype: FieldType,
    rvalue: real,
    ivalue: int,
    dataSize: int,
    dataB: seq<Byte>,
    bufferSize: Option<nat>,
    connected: bool,
    accessR: bool,
    accessW: bool,
    monitorCount: int)

  /** The field type each value type is published with; short is published
      as `CaInt`, like integer. An untyped entry has none. */
  function FieldTypeOf(t: ValueType): Option<FieldType>
  {
    match t
    case BsDouble => Some(CaDouble)
    case BsString => Some(CaString)
    case BsInteger => Some(CaInt)
    case BsLong => Some(CaLong)
    case BsShort => Some(CaInt)
    case Untyped => None
  }

  /** The entry a PV name resolves to through the name index. Under a
      consistent index a PV resolves exactly when it is indexed, and then to
      an entry carrying that very name. */
  function Resolve(s: State, pv: string): (r: Option<Channel>)
    ensures r.Some? <==> pv in s.search && s.search[pv] < |s.channels|
    ensures r.Some? ==> r.value == s.channels[s.search[pv]]
    ensures IndexConsistent(s) ==> (r.Some? <==> pv in s.search)
    ensures IndexConsistent(s) && r.Some? ==> r.value.name == pv
  {
    if pv in s.search && s.search[pv] < |s.channels| then Some(s.channels[s.search[pv]]) else None
  }

  /** The buffer records its own size: either there is no buffer, or
      `dataSize` is the number of bytes it holds. */
  predicate BufferTracksSize(k: Knob)
  {
    k.bufferSize.None? || k.bufferSize.value == k.dataSize
  }

  /** The size of the string buffer after the string branch AS WRITTEN, for
      a string of `len` code units. A missing buffer is allocated with `len`
      bytes. The reallocation test then compares `dataSize`, which the
      branch has already set to `len`, with `len`. So the test never fires
      and an existing buffer keeps its size, however long the new string is. */
  function BufferAsWritten(bufferSize: Option<nat>, len: nat): (r: nat)
    ensures bufferSize.Some? ==> r == bufferSize.value
    ensures bufferSize.None? ==> r == len
  {
    var size := if bufferSize.None? then len else bufferSize.value;
    var dataSize := len;
    if dataSize != len then len else size
  }

  /** As written, the copy overruns the buffer: a knob that first receives
      "a" gets a one-byte buffer, and then receiving "ab" copies two bytes
      into it. */
  lemma BufferAsWrittenOverflows()
    ensures var first := BufferAsWritten(None, QtText.Length("a"));
      first == 1 && BufferAsWritten(Some(first), QtText.Length("ab")) < QtText.Length("ab")
  {
  }

  /** The size of the string buffer after the string branch with the
      reallocation test made before `dataSize` is overwritten: a missing
      buffer, or one whose recorded size differs from `len`, is allocated
      anew with `len` bytes. When the buffer tracked its size before, it
      holds exactly `len` bytes after; a buffer already of that size is
      kept. */
  function BufferFor(bufferSize: Option<nat>, dataSize: int, len: nat): (r: nat)
    ensures bufferSize.None? || bufferSize.value == dataSize ==> r == len
    ensures bufferSize.Some? && dataSize == len ==> r == bufferSize.value
  {
    if bufferSize.None? || dataSize != len then len else bufferSize.value
  }

  /** After a schema frame, a PV resolves exactly when some descriptor
      carries its name, and then to the entry built from the LAST such
      descriptor; without a `channels` array nothing resolves. */
  lemma ResolveAfterSchema(s: State, f: Frame, pv: string)
    ensures SchemaDescriptors(f.parsed).None? ==> Resolve(SetHeader(s, f), pv).None?
    ensures SchemaDescriptors(f.parsed).Some? ==>
      var descs := SchemaDescriptors(f.parsed).value;
      var r := Resolve(SetHeader(s, f), pv);
      && (r.Some? <==> exists i :: 0 <= i < |descs| && DescriptorName(descs[i]) == Some(pv))
      && (r.Some? ==> exists i ::
            && 0 <= i < |descs| && DescriptorName(descs[i]) == Some(pv)
            && r.value == ParseDescriptor(descs[i])
            && forall j :: i < j < |descs| ==> DescriptorName(descs[j]) != Some(pv))
  {
    if SchemaDescriptors(f.parsed).Some? {
      var descs := SchemaDescriptors(f.parsed).value;
      var t := SetHeader(s, f);
      NameIndexKeys(descs);
      NameIndexFindsLast(descs);
      if pv in t.search {
        var i := t.search[pv];
        assert t.channels[i] == ParseDescriptor(descs[i]);
      }
    }
  }

  /** One update of a knob from its entry: the value of the entry's type is
      copied from the storage field of that type, with its field type; the
      knob is marked connected, readable and not writable, and its monitor
      count goes up by exactly one. An untyped entry copies no value.
      A string is published as its Latin-1 bytes (a code unit above 0xFF
      becomes '?'), with its length in UTF-16 code units; the buffer is
      reallocated as in `BufferFor`, so a buffer that tracked its size
      still does, and the copy fits it exactly. */
  function PublishKnob(k: Knob, c: Channel): (r: Knob)
    ensures r.index == k.index && r.pv == k.pv
    ensures r.connected && r.accessR && !r.accessW
    ensures r.monitorCount == k.monitorCount + 1
    ensures r.fieldtype == FieldTypeOf(c.vtype).GetOr(k.fieldtype)
    ensures c.vtype == BsDouble ==> r.rvalue == c.data.dbl && r.ivalue == k.ivalue && r.dataB == k.dataB
    ensures c.vtype == BsString ==>
      && r.dataB == QtText.ToLatin1(c.data.text)
      && r.dataSize == QtText.Length(c.data.text) == |r.dataB|
      && r.rvalue == k.rvalue && r.ivalue == k.ivalue
      && (BufferTracksSize(k) ==> r.bufferSize == Some(r.dataSize))
    ensures c.vtype == BsInteger ==> r.ivalue == c.data.integer && r.rvalue == k.rvalue && r.dataB == k.dataB
    ensures c.vtype == BsLong ==> r.ivalue == c.data.long && r.rvalue == k.rvalue && r.dataB == k.dataB
    ensures c.vtype == BsShort ==> r.ivalue == c.data.short && r.rvalue == k.rvalue && r.dataB == k.dataB
    ensures c.vtype != BsString ==> r.dataSize == k.dataSize && r.bufferSize == k.bufferSize
    ensures BufferTracksSize(k) ==> BufferTracksSize(r)
    ensures c.vtype == Untyped ==> r == Touch(k)
  {
    QtText.ToLatin1Length(c.data.text);
    var len := QtText.Length(c.data.text);
    var v := match c.vtype
      case BsDouble => k.(rvalue := c.data.dbl, fieldtype := CaDouble)
      case BsString => k.(fieldtype := CaString, dataSize := len,
                          bufferSize := Some(BufferFor(k.bufferSize, k.dataSize, len)),
                          dataB := QtText.ToLatin1(c.data.text))
      case BsInteger => k.(ivalue := c.data.integer, fieldtype := CaInt)
      case BsLong => k.(ivalue := c.data.long, fieldtype := CaLong)
      case BsShort => k.(ivalue := c.data.short, fieldtype := CaInt)
      case Untyped => k;
    Touch(v)
  }

  /** The flags and counter every publish sets, whatever the type. */
  function Touch(k: Knob): Knob
  {
    k.(connected := true, accessR := true, accessW := false, monitorCount := k.monitorCount + 1)
  }

  /** A knob takes part in publishing when its record exists, is in use, and
      its PV name resolves in the current index. */
  predicate Eligible(s: State, knobs: map<int, Knob>, i: int)
  {
    i in knobs && knobs[i].index != -1 && Resolve(s, knobs[i].pv).Some?
  }

  /** The fan-out over the registered indexes, in registration order. A knob
      whose name does not resolve is skipped. */
  function PublishAll(s: State, knobs: map<int, Knob>, idxs: seq<int>): (r: map<int, Knob>)
    ensures r.Keys == knobs.Keys
    ensures forall i | i in knobs :: r[i].index == knobs[i].index && r[i].pv == knobs[i].pv
    decreases |idxs|
  {
    if |idxs| == 0 then knobs
    else
      var prior := PublishAll(s, knobs, idxs[..|idxs| - 1]);
      var i := idxs[|idxs| - 1];
      if Eligible(s, prior, i) then prior[i := PublishKnob(prior[i], Resolve(s, prior[i].pv).value)]
      else prior
  }

  /** A string outside Latin-1 loses characters on the way to the knob:
      the euro sign (one code unit) and an emoji (two code units) publish as
      three '?' bytes with a recorded length of 3. */
  lemma PublishNonLatin1(k: Knob, c: Channel)
    requires c.vtype == BsString && c.data.text == "\U{20AC}\U{1F600}"
    ensures PublishKnob(k, c).dataB == [QtText.Question, QtText.Question, QtText.Question]
    ensures PublishKnob(k, c).dataSize == 3
  {
    var t := c.data.text;
    assert t[1..][1..] == [];
    assert QtText.ToLatin1(t[1..]) == [QtText.Question, QtText.Question];
    assert QtText.ToLatin1(t) == [QtText.Question] + QtText.ToLatin1(t[1..]);
  }

  /** Publishing twice from the same entry is publishing once, with the
      monitor count advanced twice. */
  lemma PublishKnobAgain(k: Knob, c: Channel, n: int)
    ensures PublishKnob(PublishKnob(k, c).(monitorCount := n), c) == PublishKnob(k, c).(monitorCount := n + 1)
  {
  }

  /** After the fan-out, a knob registered n > 0 times and eligible holds its
      entry's published value and a monitor count advanced by exactly n;
      every other knob is unchanged. */
  lemma {:induction false} PublishAllCounts(s: State, knobs: map<int, Knob>, idxs: seq<int>)
    ensures var r := PublishAll(s, knobs, idxs);
      forall i | i in knobs ::
        if Eligible(s, knobs, i) && multiset(idxs)[i] > 0 then
          r[i] == PublishKnob(knobs[i], Resolve(s, knobs[i].pv).value)
                    .(monitorCount := knobs[i].monitorCount + multiset(idxs)[i])
        else r[i] == knobs[i]
    decreases |idxs|
  {
    if |idxs| > 0 {
      var front := idxs[..|idxs| - 1];
      var last := idxs[|idxs| - 1];
      assert idxs == front + [last];
      assert multiset(idxs) == multiset(front) + multiset{last};
      PublishAllCounts(s, knobs, front);
      var prior := PublishAll(s, knobs, front);
      var r := PublishAll(s, knobs, idxs);
      forall i | i in knobs
        ensures if Eligible(s, knobs, i) && multiset(idxs)[i] > 0 then
            r[i] == PublishKnob(knobs[i], Resolve(s, knobs[i].pv).value)
                      .(monitorCount := knobs[i].monitorCount + multiset(idxs)[i])
          else r[i] == knobs[i]
      {
        assert Eligible(s, prior, i) == Eligible(s, knobs, i);
        if i != last {
          assert r[i] == prior[i];
          assert multiset(idxs)[i] == multiset(front)[i];
        } else if Eligible(s, knobs, i) {
          var c := Resolve(s, knobs[i].pv).value;
          assert r[i] == PublishKnob(prior[i], c);
          if multiset(front)[i] > 0 {
            PublishKnobAgain(knobs[i], c, knobs[i].monitorCount + multiset(front)[i]);
          }
        }
      }
    }
  }

  /** End of a message: the cursor goes back to 0 and the registered knobs
      are updated. The rest of the decoder is untouched. */
  function EndofData(s: State, knobs: map<int, Knob>): (r: (State, map<int, Knob>))
    ensures r.0 == s.(cursor := 0)
    ensures r.1.Keys == knobs.Keys
    ensures forall i | i in knobs ::
      if Eligible(s, knobs, i) && multiset(s.subscriptions)[i] > 0 then
        r.1[i] == PublishKnob(knobs[i], Resolve(s, knobs[i].pv).value)
                    .(monitorCount := knobs[i].monitorCount + multiset(s.subscriptions)[i])
      else r.1[i] == knobs[i]
    ensures forall i | i in knobs :: BufferTracksSize(knobs[i]) ==> BufferTracksSize(r.1[i])
  {
    PublishAllCounts(s, knobs, s.subscriptions);
    (s.(cursor := 0), PublishAll(s, knobs, s.subscriptions))
  }

  /** Registration of a knob for publishing: succeeds exactly when its PV
      name is in the current name index, and then appends the knob's index
      to the subscriptions; otherwise nothing changes. */
  function DataMonitorConnection(s: State, k: Knob): (r: (bool, State))
    ensures r.0 <==> k.pv in s.search
    ensures r.0 ==> r.1 == s.(subscriptions := s.subscriptions + [k.index])
    ensures !r.0 ==> r.1 == s
  {
    if k.pv in s.search then (true, s.(subscriptions := s.subscriptions + [k.index]))
    else (false, s)
  }

  /** A knob registered once, while its name is in a consistent index, is
      updated exactly once by the next end of message: connected, readable,
      not writable, monitor count up by one, value of its entry's type. */
  lemma SubscribeThenPublish(s: State, knobs: map<int, Knob>, k: Knob)
    requires IndexConsistent(s)
    requires k.index in knobs && knobs[k.index] == k && k.index != -1
    requires k.index !in s.subscriptions
    requires DataMonitorConnection(s, k).0
    ensures var s1 := DataMonitorConnection(s, k).1;
      var r := EndofData(s1, knobs).1[k.index];
      && r.connected && r.accessR && !r.accessW
      && r.monitorCount == k.monitorCount + 1
      && r == PublishKnob(k, s.channels[s.search[k.pv]])
  {
    var s1 := DataMonitorConnection(s, k).1;
    assert multiset(s1.subscriptions)[k.index] == 1;
    assert Resolve(s1, k.pv) == Some(s.channels[s.search[k.pv]]);
  }
}

=== FILE: qttext.dfy ===
/** The two `QString` operations the string publish relies on. A `QString`
    holds UTF-16 code units, so a character outside the Basic Multilingual
    Plane takes two of them. `length()` counts code units, and `toLatin1()`
    turns every code unit into one byte, with '?' for a unit above 0xFF. */
module QtText {
  import opened Prelude

  /** The byte `toLatin1()` writes for a code unit it cannot represent. */
  const Question: Byte := 0x3F

  /** The number of UTF-16 code units one character takes. */
  function Units(c: char): (n: nat)
    ensures 1 <= n <= 2
    ensures n == 1 <==> (c as int) < 0x1_0000
  {
    if (c as int) < 0x1_0000 then 1 else 2
  }

  /** `QString::length()`: the number of UTF-16 code units of a string. */
  function Length(s: string): nat
  {
    if |s| == 0 then 0 else Units(s[0]) + Length(s[1..])
  }

  /** The bytes `toLatin1()` gives for one character: the character itself
      when it is Latin-1, otherwise one '?' per code unit. */
  function Latin1Char(c: char): (r: seq<Byte>)
  {
    if (c as int) < 0x100 then [c as int]
    else if (c as int) < 0x1_0000 then [Question]
    else [Question, Question]
  }

  /** `QString::toLatin1()`. */
  function ToLatin1(s: string): (r: seq<Byte>)
  {
    if |s| == 0 then [] else Latin1Char(s[0]) + ToLatin1(s[1..])
  }

  /** `QString::fromLatin1()`: every byte is the character of that code. */
  function FromLatin1(b: seq<Byte>): (r: string)
    ensures |r| == |b|
    ensures forall i | 0 <= i < |b| :: r[i] as int == b[i]
  {
    seq(|b|, i requires 0 <= i < |b| => b[i] as char)
  }

  /** A string is Latin-1 when every character fits in one byte. */
  predicate IsLatin1(s: string)
  {
    forall i | 0 <= i < |s| :: (s[i] as int) < 0x100
  }

  /** `toLatin1()` gives exactly `length()` bytes; `length()` is at least
      the number of characters, and equal to it exactly when every
      character lies in the Basic Multilingual Plane. */
  lemma {:induction false} ToLatin1Length(s: string)
    ensures |ToLatin1(s)| == Length(s)
    ensures Length(s) >= |s|
    ensures Length(s) == |s| <==> forall i | 0 <= i < |s| :: (s[i] as int) < 0x1_0000
    decreases |s|
  {
    if |s| > 0 {
      ToLatin1Length(s[1..]);
      assert forall i | 0 <= i < |s[1..]| :: s[1..][i] == s[i + 1];
      if Length(s) == |s| {
        forall i | 0 <= i < |s|
          ensures (s[i] as int) < 0x1_0000
        {
          if i > 0 {
            assert s[i] == s[1..][i - 1];
          }
        }
      }
    }
  }

  /** Both sides of a concatenation convert independently. */
  lemma {:induction false} ToLatin1Append(a: string, b: string)
    ensures ToLatin1(a + b) == ToLatin1(a) + ToLatin1(b)
    ensures Length(a + b) == Length(a) + Length(b)
    decreases |a|
  {
    if |a| == 0 {
      assert a + b == b;
    } else {
      assert (a + b)[1..] == a[1..] + b;
      ToLatin1Append(a[1..], b);
    }
  }

  /** The conversion loses nothing exactly when the text is Latin-1: then
      reading the bytes back with `fromLatin1()` gives the text again, and
      otherwise it does not. */
  lemma {:induction false} Latin1RoundTrip(s: string)
    ensures FromLatin1(ToLatin1(s)) == s <==> IsLatin1(s)
    decreases |s|
  {
    var back := FromLatin1(ToLatin1(s));
    if IsLatin1(s) {
      if |s| > 0 {
        assert IsLatin1(s[1..]) by {
          forall i | 0 <= i < |s[1..]|
            ensures (s[1..][i] as int) < 0x100
          {
            assert s[1..][i] == s[i + 1];
          }
        }
        Latin1RoundTrip(s[1..]);
        assert ToLatin1(s) == [s[0] as int] + ToLatin1(s[1..]);
        assert back == [s[0]] + s[1..];
        assert s == [s[0]] + s[1..];
      }
    }
  }

  /** A character above 0xFF turns into '?' at the byte where its code
      units start. */
  lemma ToLatin1Replaces(s: string, i: int)
    requires 0 <= i < |s|
    requires (s[i] as int) >= 0x100
    ensures Length(s[..i]) < |ToLatin1(s)|
    ensures ToLatin1(s)[Length(s[..i])] == Question
  {
    assert s == s[..i] + s[i..];
    ToLatin1Append(s[..i], s[i..]);
    ToLatin1Length(s[..i]);
    assert ToLatin1(s[i..]) == Latin1Char(s[i]) + ToLatin1(s[i + 1..]);
  }
}

=== FILE: run.dfy ===
/** One pass of the frame reader's loop, over an already-received
    multi-part message: the first frame is the main header; if more follow,
    the next is the schema header, the rest alternate data and timestamp
    frames, and the message ends with the fan-out. A message that is only a
    main header touches nothing but the header. */
module Run {
  import opened Prelude
  import opened Channel
  import opened Schema
  import opened Decode
  import opened Publish

  /** A multi-part message: its first frame and the frames that followed it. */
  datatype Message = Message(main: Frame, more: seq<Frame>)

  /** The decoder together with the knob table it publishes into. */
  datatype World = World(decoder: State, knobs: map<int, Knob>)

  /** The data stage: a data frame, then (if one follows) its timestamp
      frame, repeated until the frames run out. Only the entries and the
      cursor change, and the cursor stays within the list. */
  function FeedData(s: State, frames: seq<Frame>): (r: State)
    ensures r == s.(channels := r.channels, cursor := r.cursor)
    ensures |r.channels| == |s.channels|
    ensures CursorInBounds(s) ==> CursorInBounds(r)
    decreases |frames|
  {
    if |frames| == 0 then s
    else if |frames| == 1 then SetChannelData(s, frames[0])
    else FeedData(SetChannelTimeStamp(SetChannelData(s, frames[0]), frames[1]), frames[2..])
  }

  /** The data stage changes no schema fact of any entry and never reaches
      an entry's integer, long or short storage field; so the name index
      stays consistent with the list. */
  lemma {:induction false} FeedDataKeepsSchema(s: State, frames: seq<Frame>)
    ensures var r := FeedData(s, frames);
      forall i | 0 <= i < |s.channels| ::
        && r.channels[i] == s.channels[i].(data := r.channels[i].data, timestamp := r.channels[i].timestamp)
        && r.channels[i].data.integer == s.channels[i].data.integer
        && r.channels[i].data.long == s.channels[i].data.long
        && r.channels[i].data.short == s.channels[i].data.short
    ensures IndexConsistent(s) ==> IndexConsistent(FeedData(s, frames))
    decreases |frames|
  {
    if |frames| >= 2 {
      FeedDataKeepsSchema(SetChannelTimeStamp(SetChannelData(s, frames[0]), frames[1]), frames[2..]);
    }
  }

  /** Where the data stage leaves the cursor: from c within N entries and
      with k complete data/timestamp pairs, at min(c + k, N). */
  lemma {:induction false} FeedDataCursor(s: State, frames: seq<Frame>)
    requires CursorInBounds(s)
    ensures var k := |frames| / 2;
      FeedData(s, frames).cursor == if s.cursor + k < |s.channels| then s.cursor + k else |s.channels|
    decreases |frames|
  {
    if |frames| >= 2 {
      FeedDataCursor(SetChannelTimeStamp(SetChannelData(s, frames[0]), frames[1]), frames[2..]);
    }
  }

  /** An entry after the data stage, defined by position alone: the entry j
      places past the starting cursor receives the j-th data/timestamp pair
      when that pair is complete, only the data frame when that frame is the
      unpaired last one, and nothing otherwise. */
  function SlotAfter(e: Channel, j: int, frames: seq<Frame>): Channel
  {
    if 0 <= j && 2 * j + 1 < |frames| then
      StoreData(e, frames[2 * j].raw).(timestamp := frames[2 * j + 1].raw.asDouble)
    else if 0 <= j && 2 * j + 1 == |frames| then StoreData(e, frames[2 * j].raw)
    else e
  }

  /** The data stage, walking the frames pair by pair, leaves every entry as
      its position alone predicts: entries before the cursor are untouched,
      and the entry j places on gets the j-th pair. */
  lemma {:induction false} FeedDataEntry(s: State, frames: seq<Frame>, i: int)
    requires CursorInBounds(s) && 0 <= i < |s.channels|
    ensures FeedData(s, frames).channels[i] == SlotAfter(s.channels[i], i - s.cursor, frames)
    decreases |frames|
  {
    if |frames| >= 2 {
      var s1 := SetChannelTimeStamp(SetChannelData(s, frames[0]), frames[1]);
      var rest := frames[2..];
      assert FeedData(s, frames) == FeedData(s1, rest);
      FeedDataEntry(s1, rest, i);
      assert SlotAfter(s1.channels[i], i - s1.cursor, rest) == SlotAfter(s.channels[i], i - s.cursor, frames) by {
        PairStepsSlot(s, frames, i);
      }
    }
  }

  /** One data/timestamp pair moves entry i one place closer to the cursor
      in the position-alone account of the data stage. */
  lemma PairStepsSlot(s: State, frames: seq<Frame>, i: int)
    requires CursorInBounds(s) && 0 <= i < |s.channels| && |frames| >= 2
    ensures var s1 := SetChannelTimeStamp(SetChannelData(s, frames[0]), frames[1]);
      SlotAfter(s1.channels[i], i - s1.cursor, frames[2..]) == SlotAfter(s.channels[i], i - s.cursor, frames)
  {
    var s1 := SetChannelTimeStamp(SetChannelData(s, frames[0]), frames[1]);
    var rest := frames[2..];
    var j := i - s.cursor;
    if s.cursor < |s.channels| {
      assert s1.cursor == s.cursor + 1;
      if j > 0 {
        assert s1.channels[i] == s.channels[i];
        if 2 * j + 1 <= |frames| {
          assert rest[2 * (j - 1)].raw == frames[2 * j].raw;
        }
        if 2 * j + 1 < |frames| {
          assert rest[2 * (j - 1) + 1].raw == frames[2 * j + 1].raw;
        }
      }
    } else {
      assert s1 == s;
    }
  }

  /** One message through the decoder. */
  function RunMessage(w: World, m: Message): (r: World)
    ensures |m.more| == 0 ==>
      r.knobs == w.knobs && r.decoder == SetMainHeader(w.decoder, m.main)
    ensures |m.more| > 0 ==> r.decoder.cursor == 0
    ensures IndexConsistent(w.decoder) ==> IndexConsistent(r.decoder)
    ensures r.decoder.subscriptions == w.decoder.subscriptions
    ensures r.knobs.Keys == w.knobs.Keys
    ensures |m.more| > 0 ==> forall i | i in w.knobs ::
      if Eligible(r.decoder, w.knobs, i) && multiset(r.decoder.subscriptions)[i] > 0 then
        r.knobs[i] == PublishKnob(w.knobs[i], Resolve(r.decoder, w.knobs[i].pv).value)
                        .(monitorCount := w.knobs[i].monitorCount + multiset(r.decoder.subscriptions)[i])
      else r.knobs[i] == w.knobs[i]
  {
    if |m.more| == 0 then w.(decoder := SetMainHeader(w.decoder, m.main))
    else
      var (s, knobs) := EndofData(Decoded(w.decoder, m), w.knobs);
      World(s, knobs)
  }

  /** The reader loop over a finite run of messages. */
  function RunAll(w: World, ms: seq<Message>): (r: World)
    ensures w.decoder.cursor == 0 ==> r.decoder.cursor == 0
    ensures IndexConsistent(w.decoder) ==> IndexConsistent(r.decoder)
    ensures r.decoder.subscriptions == w.decoder.subscriptions
    ensures r.knobs.Keys == w.knobs.Keys
    decreases |ms|
  {
    if |ms| == 0 then w else RunAll(RunMessage(w, ms[0]), ms[1..])
  }

  /** The decoder just before the fan-out of a message with a schema frame. */
  function Decoded(s: State, m: Message): (r: State)
    requires |m.more| > 0
    ensures r.subscriptions == s.subscriptions
    ensures IndexConsistent(r)
  {
    var schema := SetHeader(SetMainHeader(s, m.main), m.more[0]);
    FeedDataKeepsSchema(schema, m.more[1..]);
    FeedData(schema, m.more[1..])
  }

  /** A message with a schema frame, arriving with the cursor at 0 as it
      always does between messages: the entry list is rebuilt from the
      schema (empty for a malformed one), entry i receives the i-th
      data/timestamp pair (or the unpaired last data frame) when there is
      one and is left as the schema made it otherwise, and the cursor is
      back at 0. */
  lemma RunMessagePulse(w: World, m: Message)
    requires w.decoder.cursor == 0 && |m.more| > 0
    ensures var r := RunMessage(w, m).decoder;
      var entries := SchemaEntries(m.more[0].parsed);
      && r.cursor == 0
      && |r.channels| == |entries|
      && forall i | 0 <= i < |entries| :: r.channels[i] == SlotAfter(entries[i], i, m.more[1..])
  {
    var schema := SetHeader(SetMainHeader(w.decoder, m.main), m.more[0]);
    var r := RunMessage(w, m).decoder;
    assert r.channels == FeedData(schema, m.more[1..]).channels;
    forall i | 0 <= i < |schema.channels|
      ensures r.channels[i] == SlotAfter(schema.channels[i], i, m.more[1..])
    {
      FeedDataEntry(schema, m.more[1..], i);
    }
  }

  /** No data frame ever reaches the integer, long or short storage field of
      an entry: after a message with a schema they hold a fresh entry's values. */
  lemma RunMessageKeepsIntegerFields(w: World, m: Message)
    requires |m.more| > 0
    ensures var r := RunMessage(w, m).decoder;
      forall i | 0 <= i < |r.channels| ::
        && r.channels[i].data.integer == Fresh.data.integer
        && r.channels[i].data.long == Fresh.data.long
        && r.channels[i].data.short == Fresh.data.short
  {
    var schema := SetHeader(SetMainHeader(w.decoder, m.main), m.more[0]);
    FeedDataKeepsSchema(schema, m.more[1..]);
    assert forall i | 0 <= i < |schema.channels| :: schema.channels[i].data == Fresh.data;
    assert RunMessage(w, m).decoder.channels == FeedData(schema, m.more[1..]).channels;
  }

  /** The integer, long and short values read from data frames never reach
      a knob: after a message with a schema, a knob published from an entry
      of one of those types carries the fresh entry's stored value, whatever
      the data frames held. */
  lemma IntegerValuesNeverPublished(w: World, m: Message, i: int)
    requires |m.more| > 0 && i in w.knobs && i in w.decoder.subscriptions
    ensures var r := RunMessage(w, m);
      Eligible(r.decoder, w.knobs, i) ==>
        var c := Resolve(r.decoder, w.knobs[i].pv).value;
        && (c.vtype == BsInteger ==> r.knobs[i].ivalue == Fresh.data.integer)
        && (c.vtype == BsLong ==> r.knobs[i].ivalue == Fresh.data.long)
        && (c.vtype == BsShort ==> r.knobs[i].ivalue == Fresh.data.short)
  {
    RunMessageKeepsIntegerFields(w, m);
    var r := RunMessage(w, m);
    assert multiset(r.decoder.subscriptions)[i] > 0;
  }
}

=== FILE: schema.dfy ===
/** The channel schema carried by the second frame of a message: a JSON
    object whose `channels` array holds one descriptor per channel. Each
    descriptor becomes one channel entry, and the entries that have a name
    are entered in a name index. */
module Schema {
  import opened Prelude
  import opened Json
  import opened Channel

  /** The wire name of a value type; `Untyped` has none. */
  function TypeName(t: ValueType): Option<string>
  {
    match t
    case BsDouble => Some("double")
    case BsString => Some("string")
    case BsInteger => Some("integer")
    case BsLong => Some("long")
    case BsShort => Some("short")
    case Untyped => None
  }

  /** The value type a descriptor's type string selects: exactly the five
      wire names are recognised, every other string selects none. */
  function ParseType(s: string): (r: ValueType)
    ensures r != Untyped ==> TypeName(r) == Some(s)
    ensures r == Untyped ==> forall t :: TypeName(t) != Some(s)
  {
    if s == "double" then BsDouble
    else if s == "string" then BsString
    else if s == "integer" then BsInteger
    else if s == "long" then BsLong
    else if s == "short" then BsShort
    else Untyped
  }

  /** Parsing a wire name gives back the type it names. */
  lemma ParseTypeName(t: ValueType)
    requires t != Untyped
    ensures TypeName(t).Some? && ParseType(TypeName(t).value) == t
  {
  }

  /** The members of one descriptor. A descriptor that is not an object is
      read as an object without members. */
  function DescriptorMembers(d: Json): map<string, Json>
  {
    if d.JObject? then d.members else map[]
  }

  /** The name a descriptor enters in the name index, if it has a string name. */
  function DescriptorName(d: Json): (r: Option<string>)
    ensures r.Some? <==> "name" in DescriptorMembers(d) && DescriptorMembers(d)["name"].JString?
  {
    StringMember(DescriptorMembers(d), "name")
  }

  /** One dimension of a shape array, `(int)` of the element's number. An
      element that is not a number is read as 0. */
  function ShapeDim(e: Json): int
  {
    if e.JNumber? then TruncateToInt(e.num) else 0
  }

  /** The shape of a descriptor: the `shape` array is consulted only when an
      `encoding` string is present as well. */
  function DescriptorShape(members: map<string, Json>): (r: Option<seq<int>>)
    ensures r.Some? <==> StringMember(members, "encoding").Some? && ArrayMember(members, "shape").Some?
    ensures r.Some? ==> var dims := ArrayMember(members, "shape").value;
      |r.value| == |dims| && forall j :: 0 <= j < |dims| ==> r.value[j] == ShapeDim(dims[j])
  {
    if StringMember(members, "encoding").Some? then
      match ArrayMember(members, "shape")
      case Some(dims) => Some(seq(|dims|, j requires 0 <= j < |dims| => ShapeDim(dims[j])))
      case None => None
    else None
  }

  /** The entry one descriptor yields: a fresh entry with each field the
      descriptor supplies, in the expected kind, filled in. */
  function ParseDescriptor(d: Json): (c: Channel)
    ensures var m := DescriptorMembers(d);
      && (StringMember(m, "type").Some? ==> c.vtype == ParseType(StringMember(m, "type").value))
      && (StringMember(m, "type").None? ==> c.vtype == Untyped)
      && (DescriptorName(d).Some? ==> c.name == DescriptorName(d).value)
      && (DescriptorName(d).None? ==> c.name == Fresh.name)
      && c.offset == NumberMember(m, "offset").GetOr(Fresh.offset)
      && c.modulo == NumberMember(m, "modulo").GetOr(Fresh.modulo)
      && (c.endianness == Big <==> StringMember(m, "encoding") == Some("big"))
      && c.shape == DescriptorShape(m).GetOr(Fresh.shape)
    ensures c.data == Fresh.data && c.timestamp == Fresh.timestamp
  {
    var m := DescriptorMembers(d);
    var vtype := match StringMember(m, "type")
      case Some(s) => ParseType(s)
      case None => Fresh.vtype;
    var endianness := if StringMember(m, "encoding") == Some("big") then Big else Fresh.endianness;
    Fresh.(
      name := DescriptorName(d).GetOr(Fresh.name),
      vtype := vtype,
      offset := NumberMember(m, "offset").GetOr(Fresh.offset),
      modulo := NumberMember(m, "modulo").GetOr(Fresh.modulo),
      endianness := endianness,
      shape := DescriptorShape(m).GetOr(Fresh.shape))
  }

  /** The entry list built from a descriptor array: one entry per descriptor,
      in array order, whatever the descriptor holds. */
  function ParseChannels(descs: seq<Json>): (r: seq<Channel>)
    ensures |r| == |descs|
    ensures forall i :: 0 <= i < |descs| ==> r[i] == ParseDescriptor(descs[i])
  {
    seq(|descs|, i requires 0 <= i < |descs| => ParseDescriptor(descs[i]))
  }

  /** The name each descriptor enters in the index, in order. */
  function Names(descs: seq<Json>): (r: seq<Option<string>>)
    ensures |r| == |descs|
    ensures forall i :: 0 <= i < |descs| ==> r[i] == DescriptorName(descs[i])
  {
    seq(|descs|, i requires 0 <= i < |descs| => DescriptorName(descs[i]))
  }

  /** The index built by inserting each present name under its position, in
      order, a later insertion under the same name replacing the earlier one. */
  function IndexOf(names: seq<Option<string>>): map<string, nat>
    decreases |names|
  {
    if |names| == 0 then map[]
    else
      var last := |names| - 1;
      var prior := IndexOf(names[..last]);
      match names[last]
      case Some(n) => prior[n := last]
      case None => prior
  }

  /** The name index built while the descriptors are appended in order: each
      named descriptor is inserted under its name, a later insertion under the
      same name replacing the earlier one. */
  function NameIndex(descs: seq<Json>): map<string, nat>
  {
    IndexOf(Names(descs))
  }

  /** A name is in the index built from a list exactly when it occurs there. */
  lemma {:induction false} IndexOfKeys(names: seq<Option<string>>)
    ensures forall n :: n in IndexOf(names) <==> exists i :: 0 <= i < |names| && names[i] == Some(n)
    decreases |names|
  {
    if |names| > 0 {
      var last := |names| - 1;
      var front := names[..last];
      IndexOfKeys(front);
      forall n
        ensures n in IndexOf(names) <==> exists i :: 0 <= i < |names| && names[i] == Some(n)
      {
        if n in IndexOf(names) && names[last] != Some(n) {
          assert n in IndexOf(front);
          var i :| 0 <= i < |front| && front[i] == Some(n);
          assert front[i] == names[i];
        }
        if exists i :: 0 <= i < |names| && names[i] == Some(n) {
          var i :| 0 <= i < |names| && names[i] == Some(n);
          if i < last {
            assert front[i] == names[i];
          }
        }
      }
    }
  }

  /** A name leads to the LAST position where it occurs. */
  lemma {:induction false} IndexOfFindsLast(names: seq<Option<string>>)
    ensures var r := IndexOf(names);
      forall n | n in r :: r[n] < |names| && names[r[n]] == Some(n)
    ensures var r := IndexOf(names);
      forall n | n in r :: forall j :: r[n] < j < |names| ==> names[j] != Some(n)
    decreases |names|
  {
    if |names| > 0 {
      var last := |names| - 1;
      var front := names[..last];
      IndexOfFindsLast(front);
      var r := IndexOf(names);
      var prior := IndexOf(front);
      forall n | n in r
        ensures r[n] < |names| && names[r[n]] == Some(n)
        ensures forall j :: r[n] < j < |names| ==> names[j] != Some(n)
      {
        if names[last] == Some(n) {
          assert r[n] == last;
        } else {
          assert n in prior && r[n] == prior[n];
          assert front[prior[n]] == names[prior[n]];
          forall j | r[n] < j < |names|
            ensures names[j] != Some(n)
          {
            if j < last {
              assert front[j] == names[j];
            }
          }
        }
      }
    }
  }

  /** A name is in the index exactly when some descriptor carries it. */
  lemma NameIndexKeys(descs: seq<Json>)
    ensures forall n :: n in NameIndex(descs) <==> exists i :: 0 <= i < |descs| && DescriptorName(descs[i]) == Some(n)
  {
    IndexOfKeys(Names(descs));
  }

  /** A name leads to the position of the LAST descriptor carrying it. */
  lemma NameIndexFindsLast(descs: seq<Json>)
    ensures var r := NameIndex(descs);
      forall n | n in r :: r[n] < |descs| && DescriptorName(descs[r[n]]) == Some(n)
    ensures var r := NameIndex(descs);
      forall n | n in r :: forall j :: r[n] < j < |descs| ==> DescriptorName(descs[j]) != Some(n)
  {
    IndexOfFindsLast(Names(descs));
  }

  /** Strings are read up to their first NUL: a descriptor whose type is
      "double", a NUL and more selects double. */
  lemma TypeCutAtNul()
    ensures ParseDescriptor(JObject(map["type" := JString("double\0x")])).vtype == BsDouble
  {
    assert CStr("double\0x") == "double" by {
      assert "double\0x"[6..] == "\0x";
    }
  }

  /** Two names that agree up to a NUL are one key of the index, and the
      later descriptor wins it. */
  lemma NamesCutAtNul()
    ensures NameIndex([JObject(map["name" := JString("A\0x")]), JObject(map["name" := JString("A\0y")])])
            == map["A" := 1]
  {
    var descs := [JObject(map["name" := JString("A\0x")]), JObject(map["name" := JString("A\0y")])];
    assert CStr("A\0x") == "A" by {
      assert "A\0x"[1..] == "\0x";
    }
    assert CStr("A\0y") == "A" by {
      assert "A\0y"[1..] == "\0y";
    }
    var names := Names(descs);
    assert names == [Some("A"), Some("A")];
    assert names[..1][..0] == [];
    assert IndexOf(names[..1]) == map["A" := 0];
  }
}
